=== FILE: README.md ===
# react-native-vault-guardian, modelled in Dafny

`useVaultGuardian` is a React Native hook that reports device-integrity signals to the app:
- emulator or simulator;
- rooted or jailbroken device;
- debugger attached;
- tampered clock;
- tampered runtime, network, hardware or signal;
- failed certificate pinning;
- Frida or other injected libraries;
- a sensitive-looking clipboard;
- whether the app is in the background.

Each signal comes from a probe. Most probes ask an optional native module through `withTimeout`. That helper races the module's promise against a 3000 ms timer and turns a timeout or a failure into `null`. The clipboard probe is the exception: it awaits `Clipboard.getString()` with no timeout. Every probe catches its own errors and falls back to a safe default.

The hook starts with `loading: true`. It runs one full scan and publishes every result in a single update. Besides the scan, only two partial updates happen. Both are armed when the scan starts, so they may come before or after it publishes:
- the app-state listener moves `isAppInBackground`;
- a clipboard poll every 5 s can raise `isClipboardSuspicious`.

The project models:
- the bundled hook and its probes (`dist/index.js`);
- the older synchronous hook (`src/index.ts`);
- the Android hardware heuristic (`HardwareModule.isTampered`);
- the iOS image scan (`isFridaPresent`).

Modules:
- `Js`: the JavaScript values the probes see, truthiness, `Number()`, and the app-state test.
- `Strings`: substring search, prefix test, ASCII lower-casing, and `join("")`.
- `Probe`: `withTimeout` as a race over the time at which a promise settles, plus the `!!` coercion.
- `Detectors`: the emulator, root/jailbreak, debugger and clock checks.
- `Clipboard`: the three clipboard regexes, written as position predicates, with an executable matcher proved equal to them.
- `Scan`: `performChecks`, from one `Host` description to the thirteen probe fields.
- `Guardian`: the hook as a step function over events. The events are the effect, the scan resolving, app-state changes, clipboard polls and their reads resolving, and the cleanup.
- `Legacy`: the synchronous hook of `src/index.ts`.
- `Hardware`: `HardwareModule.isTampered`.
- `Frida`: `isFridaPresent` on iOS.

Behaviour of the code as written that is worth knowing:
- **No generation counter.** The scan's write is guarded only by the effect's `isMounted` flag. A scan that resolves after the cleanup is dropped (`Guardian.ScanScenarios`).
- **Clipboard reads after cleanup.** The interval callback has no `isMounted` check. A clipboard read started before the cleanup still calls `setStatus` when it resolves (`Guardian.ReadInFlightWritesAfterUnmount`).
- **Scan overwrites the clipboard flag.** The app-state listener and the clipboard interval are armed before the first scan resolves. A clipboard hit seen by the interval can therefore be overwritten by the scan's own clipboard result (`Guardian.ScanOverwritesClipboardFlag`).
- **Certificate-pinning default.** The probe's failure default is `false`. That is the alarming value, while its loading value is `true` (`Scan.BareHostReportsNothing`).
- **Legacy root check.** The older hook stores whatever `checkRootAccess()` returned, so the value need not be a boolean. A promise there counts as rooted (`Legacy.PromiseCountsAsRooted`).

## Model

| member | source | states |
|---|---|---|
| Probe.WithTimeout | dist/index.js:64-79 | A missing method gives `undefined`. A promise that never settles, settles at or after the timeout, or rejects gives `null`. A promise that fulfils before the timeout gives its value. The helper never fails. |
| Probe.Coerced | dist/index.js:157-170 | A coerced native probe reports `true` exactly when the capability was invoked without a synchronous throw and fulfilled strictly before 3000 ms with a truthy value. Otherwise it reports `false`. |
| Strings.IndexOfFrom | android/HardwareModule.java:13-15 | The result is the first position at or after `from` where `sub` occurs, or -1 exactly when no later position holds `sub`. |
| Strings.Includes | ios/FridaDetectionModule.swift:17 | The substring test holds exactly when `sub` occurs at some position of `s`. |
| Strings.ToLower | dist/index.js:89-90 | Lower-casing keeps the length. It leaves no ASCII capital in the result, so the regexes' `i` flag changes nothing on lower-cased text and a case-sensitive marker search is exact. It turns each capital into its lower-case letter and leaves every other character alone. |
| Strings.JoinKeepsPart | dist/index.js:89 | A substring of any one value is a substring of the values joined with no separator. |
| Detectors.IncludesAny | dist/index.js:90 | An alternation of literals matches exactly when one of the markers occurs in the text. |
| Detectors.EmulatorCheck | dist/index.js:80-103 | On Android: the build properties arrived in time, are truthy, and their values joined by `ObjectValuesJoined` (`Object.values(x).join("")`) and lower-cased contain one of generic, sdk, emulator, x86, goldfish or ranchu. On iOS: the model is a string whose lower-case form contains simulator, x86_64 or i386. On other platforms: never. |
| Detectors.EmulatorMarkerMaySpanValues | dist/index.js:89-90 | A marker may straddle two build-property values, because the values are joined without a separator. |
| Detectors.NoBuildPropsIsNotEmulator | dist/index.js:84-88 | Missing, late, failed or falsy build properties never mark an Android emulator. |
| Detectors.RootCheck | dist/index.js:104-119 | The device is rooted exactly when the file-system module exists, none of the three calls throws synchronously, and at least one of them reports a truthy value in time. |
| Detectors.DebuggerCheck | dist/index.js:120-133 | A debugger is detected exactly when the DevTools global hook is set or the native check reports a truthy value in time. |
| Detectors.TimeTampered | dist/index.js:134-156 | Rules in priority order: a year outside [2015, 2100] is tampered; a synchronous throw is not; a truthy trusted time, converted by `Js.ToNumber` (`Number(x)`), decides by a skew above five minutes, and `NaN` gives `false`; otherwise the 100 ms timer must take 80 to 150 ms. |
| Detectors.TimeTamperingBoundaries | dist/index.js:139-151 | The year bounds are inclusive. The skew bound is strict. A trusted time of 0 is falsy and falls through to the timer measurement. |
| Clipboard.SpanEnd | dist/index.js:224-226 | The end of the maximal run of one character class starting at `i`: every character in between belongs to the class, and the character at the end does not. |
| Clipboard.BearerMatchAtCorrect | dist/index.js:224 | The executable bearer-token matcher succeeds at `i` exactly when some split of `Bearer\s+` followed by three dot-separated token segments starts at `i`. |
| Clipboard.MatchAtCorrect | dist/index.js:224-226 | The executable matcher of each pattern succeeds at `i` exactly when the pattern's regex has a match starting at `i`. |
| Clipboard.SearchFrom | dist/index.js:228-230 | The search succeeds exactly when a match of the pattern starts at some position at or after `i`. |
| Clipboard.Test | dist/index.js:228-230 | `regex.test(content)` holds exactly when the pattern matches somewhere in the content. |
| Clipboard.CheckClipboard | dist/index.js:219-237 | The clipboard is cleared exactly when the content is suspicious. Content is suspicious exactly when the read succeeded, the content is non-empty, and one of the three patterns matches. |
| Clipboard.OneTimeCodeIsFlagged | dist/index.js:226-231 | A standalone six-digit code is suspicious. |
| Clipboard.LongerDigitRunIsNoCode | dist/index.js:226 | Seven digits in a row hold no one-time code, because the six digits must stand between word boundaries. |
| Clipboard.CardNumberIsFlagged | dist/index.js:225-231 | A 16-digit number starting with 4 is suspicious. |
| Clipboard.BearerTokenIsFlagged | dist/index.js:224-231 | "Bearer " followed by three dot-separated token segments is suspicious. |
| Hardware.IsTampered | android/HardwareModule.java:12-19 | Tampered exactly when the fingerprint contains "generic", the model contains "Emulator", the manufacturer contains "Genymotion", or the brand or device starts with "generic". |
| Hardware.PrefixVersusSubstring | android/HardwareModule.java:13-17 | Brand and device are prefix tests while fingerprint is a substring test. Matching is case-sensitive ("emulator" is not "Emulator"). |
| Frida.IsFridaPresent | ios/FridaDetectionModule.swift:13-23 | Present exactly when some loaded image name contains "frida" or "cycript". The scan stops at the first such image. When present, no earlier image matched. When absent, every image was inspected. |
| Frida.CaseSensitive | ios/FridaDetectionModule.swift:17 | `strstr` is case-sensitive: "frida-agent.dylib" is caught and "FridaGadget" is not. |
| Scan.PerformChecks | dist/index.js:294-321 | Each published field depends only on its own capability. The emulator, root and clock fields are the answers of `Detectors.EmulatorCheck`, `Detectors.RootCheck` and `Detectors.TimeTampered`. A coerced field is true exactly when its capability reported a truthy value in time. The debugger field is the DevTools hook or the native answer. The hook and environment fields are the synchronous checks' answers. The clipboard field is true exactly when the read succeeded, the content is non-empty, and one of the three patterns matches. |
| Scan.BareHostReportsNothing | dist/index.js:193-205 | A host without native modules, with a sane clock and an empty clipboard, reports nothing. Its certificate pin also reads as not valid. |
| Guardian.InitialStatus | dist/index.js:274-290 | The first render is loading. It shows the loading defaults (all false, pinning true). The background flag is true exactly when the app state is not "active". |
| Guardian.ApplyScan | dist/index.js:322-339 | The scan's update writes all thirteen probe fields and clears `loading` in one step. It keeps the background flag. |
| Guardian.WithAppState | dist/index.js:342-346 | The listener's update moves only the background flag, which becomes true exactly when the new state is not "active". |
| Guardian.RaiseClipboardFlag | dist/index.js:349-351 | A suspicious poll sets the clipboard flag and changes nothing else. |
| Guardian.Step | dist/index.js:292-358 | The first effect arms the listener, the interval and the scan; a later one does nothing. A poll while mounted starts one more clipboard read. An app-state change moves only the background flag, and only while mounted. A clipboard read resolving changes nothing when it was clean; a suspicious one that was in flight raises the clipboard flag (`RaiseClipboardFlag`), and no read lowers it. The effect, a poll and the cleanup leave the status alone. A scan that resolves while mounted and in flight writes all probe fields and clears `loading` (`ApplyScan`). Any other scan leaves the status alone. `loading` is cleared only that way and is never set again. The cleanup clears `isMounted`, and the effect never re-arms. |
| Guardian.RunPreservesValid | dist/index.js:292-358 | Every reachable hook state keeps its invariant: listeners and the scan exist only after the effect, and a published scan is no longer in flight. |
| Guardian.PartialUpdatesOnly | dist/index.js:342-352 | Over any trace without a completed scan, `loading` and every probe field except the clipboard flag stay put, and the clipboard flag is only raised. |
| Guardian.LoadingStaysCleared | dist/index.js:322-338 | Once `loading` is false it stays false over any trace. |
| Guardian.PublishedOnce | dist/index.js:322-352 | After the scan has been published in a reachable state, no later event changes `loading` or any probe field except raising the clipboard flag. |
| Guardian.FrozenAfterUnmount | dist/index.js:353-357 | After the cleanup only clipboard reads already in flight can change the status, and they only raise the clipboard flag. With none in flight the status is frozen. |
| Guardian.ScanScenarios | dist/index.js:322-339 | A mounted scan publishes its results over the loading defaults. A scan resolving after the cleanup leaves the defaults showing. |
| Guardian.ScanOverwritesClipboardFlag | dist/index.js:323-352 | A clipboard hit found by the interval before the scan resolves is overwritten by a scan whose own clipboard read was clean. |
| Guardian.ReadInFlightWritesAfterUnmount | dist/index.js:347-352 | A clipboard read started before the cleanup still raises the flag after it. |
| Legacy.LowerOrEmpty | src/index.ts:16 | `(x \|\| '').toLowerCase()` throws exactly on a truthy non-string, lower-cases a string, and gives "" for a falsy value. |
| Legacy.EmulatorCheck | src/index.ts:14-24 | On Android the brand must be exactly "generic" ignoring case. On iOS the model must contain "simulator" ignoring case. A truthy non-string property throws a `TypeError`. Other platforms give `false`. |
| Legacy.EmulatorBrandIsExact | src/index.ts:16-17 | "Generic" is an emulator brand. "generic_x86" and a missing brand are not. |
| Legacy.RootCheck | src/index.ts:26-33 | The result is truthy exactly when the module and method exist, the call does not throw, and its value is truthy. The result is then that value; otherwise it is `false`. |
| Legacy.PromiseCountsAsRooted | src/index.ts:29 | A promise returned by an asynchronous native method is truthy, so it reports a rooted device. |
| Legacy.YearWindowsDiffer | src/index.ts:39-42 | `Legacy.TimeTampered` is the year test of this variant, outside [2010, 2100]. Every year this variant flags is flagged by the bundled hook too. The years 2010 to 2014 are flagged only by the bundled hook. |
| Legacy.EffectStatus | src/index.ts:58-64 | The effect throws exactly when the emulator check throws. Otherwise every field of the new record is that field's check. |
| Legacy.LegacyStep | src/index.ts:53-71 | An app-state change moves only the background flag, and only while subscribed. The cleanup unsubscribes. The effect runs once, so a second run leaves the hook as it was: a throwing effect keeps the status and never subscribes, and a successful one replaces the whole record and subscribes. |
| Legacy.LegacySilentAfterUnmount | src/index.ts:66-70 | After the cleanup, or after the effect threw, no event changes the status. |
| Legacy.LegacyStartup | src/index.ts:45-64 | The first render reports foreground even when the app starts in the background. The effect then replaces the whole record. |

## Left out

- Timers, promises and concurrency are not executed. Each native promise is reduced to the delay after which it settles, and each interleaving of hook events to a trace. A settlement at exactly 3000 ms goes to the timer. The real order of two timers due at the same instant is not modelled.
- `Promise.resolve` of a thenable is not modelled; a fulfilled value is used as it is.
- React itself is not modelled: rendering, batching, the warning or no-op when state is set on an unmounted component, and Strict Mode running an effect twice. The model follows the hook's own `setStatus` calls, and the effect runs once.
- Logging (`log`, `logWarn`, `logError`) and the `__DEV__` switch are not modelled, because they do not affect any result.
- `NativeModules`, `Platform.OS`, `AppState.currentState`, `Clipboard.getString`, `Date.now`, `performance.now` and `global.__REACT_DEVTOOLS_GLOBAL_HOOK__` are inputs. The calendar year of `new Date(now)` is an input too: it depends on the local time zone.
- Detectors.TimeTampered: the timer measurement is an integer number of milliseconds, while `performance.now()` differences are fractional.
- `detectHookTampering` and `detectEnvTampering` are input booleans. They inspect the JavaScript runtime (`console.log.toString()`, `global` keys), which is outside the model.
- Clipboard.CheckClipboard: the scan's clipboard read has no timeout (`Clipboard.getString()` is awaited directly), so a read that never settles holds the scan's `Promise.all` and `loading` forever. `ClipboardRead` has no never-settling case; the hook model expresses this only as a trace with no `ScanResolved` event.
- `Clipboard.setString("")` is recorded as a flag of the verdict, not as a write to a clipboard.
- JavaScript numbers are integers here; fractions and `-0` are absent. `Number()` of a string parses plain decimal digits only; any other text gives `NaN`.
- Js.ToNumber: `Number()` of any object is `NaN` here, while JavaScript converts an array through its comma-joined string, so `Number([])` is 0 and `Number(["1700000000000"])` is 1700000000000. A trusted time that resolves as a one-element array therefore decides the clock check by its skew in the source, but gives `false` in `Detectors.TimeTampered`. `Obj` does not tell arrays from plain objects.
- `toLowerCase` is ASCII-only; other Unicode case mappings are not modelled.
- Object values are strings only. `Object.values` of an object with non-string values would stringify them.
- The Objective-C loop's `uint32_t` index is unbounded here.
- The image list is a sequence of names, and `strstr` works on those characters.
- `android/FridaDetectionModule.java`, `SSLPinningModule.java` and the type declarations in `dist/index.d.ts` are not part of this model.

=== FILE: clipboard.dfy ===
/** `checkClipboardForSensitiveData`: the three regular expressions of the
    source written out as position predicates (what `regex.test` means),
    executable matchers proved equal to them, and the check that clears the
    clipboard when one of them matches. */
module Clipboard {
  import opened Strings
  import Js

  /** JavaScript's `\s`: the ECMAScript white-space and line-terminator
      characters. */
  predicate IsSpace(c: char) {
    || c == '\t' || c == '\n' || c == '\U{000B}' || c == '\U{000C}' || c == '\r'
    || c == ' ' || c == '\U{00A0}' || c == '\U{1680}'
    || ('\U{2000}' <= c <= '\U{200A}')
    || c == '\U{2028}' || c == '\U{2029}' || c == '\U{202F}' || c == '\U{205F}'
    || c == '\U{3000}' || c == '\U{FEFF}'
  }

  /** `[a-zA-Z0-9-_]`: the characters of one segment of a dotted token. */
  predicate IsTokenChar(c: char) {
    ('a' <= c <= 'z') || ('A' <= c <= 'Z') || ('0' <= c <= '9') || c == '-' || c == '_'
  }

  /** `\w`: the characters that `\b` separates from the rest. */
  predicate IsWordChar(c: char) {
    ('a' <= c <= 'z') || ('A' <= c <= 'Z') || ('0' <= c <= '9') || c == '_'
  }

  datatype CharClass = Space | Token | Digit

  predicate InClass(c: char, k: CharClass) {
    match k
    case Space => IsSpace(c)
    case Token => IsTokenChar(c)
    case Digit => Js.IsDigit(c)
  }

  /** Every character of `s[lo..hi]` belongs to class `k`. */
  predicate AllIn(s: string, lo: int, hi: int, k: CharClass) {
    0 <= lo <= hi <= |s| && forall j :: lo <= j < hi ==> InClass(s[j], k)
  }

  /** `\b` in front of a word character at index `i`. */
  predicate BoundaryBefore(s: string, i: int) {
    i == 0 || (0 < i <= |s| && !IsWordChar(s[i - 1]))
  }

  /** `\b` behind a word character that ends at index `i`. */
  predicate BoundaryAfter(s: string, i: int) {
    i == |s| || (0 <= i < |s| && !IsWordChar(s[i]))
  }

  /** The three suspicious patterns, in the source's order. */
  datatype Pattern =
    | BearerToken  // /Bearer\s+[a-zA-Z0-9-_]+\.[a-zA-Z0-9-_]+\.[a-zA-Z0-9-_]+/
    | CardNumber   // /\b4[0-9]{12}(?:[0-9]{3})?\b/
    | OneTimeCode  // /\b\d{6}\b/

  const BEARER: string := "Bearer"

  /** A match of the bearer pattern starting at `i`: the white-space run is
      `s[i+6..w]`, the first two segments end at the dots `s[a]` and `s[b]`,
      and one token character follows the second dot (the last `+` needs no
      more). */
  predicate BearerAt(s: string, i: int, w: int, a: int, b: int) {
    && ContainsAt(s, BEARER, i)
    && i + |BEARER| < w && AllIn(s, i + |BEARER|, w, Space)
    && w < a && AllIn(s, w, a, Token) && a < |s| && s[a] == '.'
    && a + 1 < b && AllIn(s, a + 1, b, Token) && b < |s| && s[b] == '.'
    && b + 1 < |s| && IsTokenChar(s[b + 1])
  }

  /** A word made of exactly `n` digits starts at `i`. */
  predicate DigitWordAt(s: string, i: int, n: nat) {
    AllIn(s, i, i + n, Digit) && BoundaryBefore(s, i) && BoundaryAfter(s, i + n)
  }

  /** A match of pattern `p` starts at index `i` of `s`. */
  ghost predicate StartsAt(p: Pattern, s: string, i: int) {
    match p
    case BearerToken => exists w, a, b :: BearerAt(s, i, w, a, b)
    case CardNumber =>
      0 <= i < |s| && s[i] == '4' && (DigitWordAt(s, i, 13) || DigitWordAt(s, i, 16))
    case OneTimeCode => DigitWordAt(s, i, 6)
  }

  /** `p.test(s)`: a match starts somewhere in `s`. */
  ghost predicate Matches(p: Pattern, s: string) {
    exists i :: StartsAt(p, s, i)
  }

  /** The end of the longest run of class-`k` characters starting at `i`. */
  function SpanEnd(s: string, i: nat, k: CharClass): (e: nat)
    requires i <= |s|
    decreases |s| - i
    ensures i <= e <= |s| && AllIn(s, i, e, k)
    ensures e == |s| || !InClass(s[e], k)
  {
    if i < |s| && InClass(s[i], k) then SpanEnd(s, i + 1, k) else i
  }

  /** Executable test for a bearer-token match at `i`: the white-space and
      token runs are taken greedily and the resulting split is checked.  No
      backtracking is needed because a run always stops at a character the
      next part must start with. */
  function BearerMatchAt(s: string, i: nat): bool {
    if !ContainsAt(s, BEARER, i) then false
    else
      var w := SpanEnd(s, i + |BEARER|, Space);
      var a := SpanEnd(s, w, Token);
      a < |s| && BearerAt(s, i, w, a, SpanEnd(s, a + 1, Token))
  }

  /** Executable test for a match of `p` at `i`. */
  function MatchAt(p: Pattern, s: string, i: nat): bool {
    match p
    case BearerToken => BearerMatchAt(s, i)
    case CardNumber =>
      i < |s| && s[i] == '4' && (DigitWordAt(s, i, 13) || DigitWordAt(s, i, 16))
    case OneTimeCode => DigitWordAt(s, i, 6)
  }

  /** A greedy run that ends where the class stops is the run any match
      must use. */
  lemma SpanEndIsForced(s: string, i: nat, e: int, k: CharClass)
    requires i <= |s|
    requires AllIn(s, i, e, k) && e < |s| && !InClass(s[e], k)
    ensures SpanEnd(s, i, k) == e
  {
  }

  /** The white-space run after "Bearer" ends where the first segment
      starts. */
  lemma SpaceRunEnds(s: string, i: nat, w: int, a: int)
    requires i <= |s| && AllIn(s, i, w, Space)
    requires w < a && AllIn(s, w, a, Token)
    ensures SpanEnd(s, i, Space) == w
  {
    assert IsTokenChar(s[w]);
    SpanEndIsForced(s, i, w, Space);
  }

  /** A segment's token run ends at the dot behind it. */
  lemma TokenRunEnds(s: string, lo: nat, e: int)
    requires lo <= |s| && AllIn(s, lo, e, Token)
    requires e < |s| && s[e] == '.'
    ensures SpanEnd(s, lo, Token) == e
  {
    SpanEndIsForced(s, lo, e, Token);
  }

  /** Any match uses exactly the runs the matcher takes greedily. */
  lemma BearerMatchAtComplete(s: string, i: nat)
    requires StartsAt(BearerToken, s, i)
    ensures BearerMatchAt(s, i)
  {
    var w, a, b :| BearerAt(s, i, w, a, b);
    SpaceRunEnds(s, i + |BEARER|, w, a);
    TokenRunEnds(s, w, a);
    TokenRunEnds(s, a + 1, b);
  }

  lemma {:induction false} BearerMatchAtCorrect(s: string, i: nat)
    ensures BearerMatchAt(s, i) <==> StartsAt(BearerToken, s, i)
  {
    if StartsAt(BearerToken, s, i) {
      BearerMatchAtComplete(s, i);
    }
  }

  lemma MatchAtCorrect(p: Pattern, s: string, i: nat)
    ensures MatchAt(p, s, i) <==> StartsAt(p, s, i)
  {
    if p.BearerToken? {
      BearerMatchAtCorrect(s, i);
    }
  }

  /** Every match starts inside the string. */
  lemma StartsInside(p: Pattern, s: string, i: int)
    requires StartsAt(p, s, i)
    ensures 0 <= i < |s|
  {
  }

  /** Some match of `p` starts at index `i` or later. */
  function SearchFrom(p: Pattern, s: string, i: nat): (r: bool)
    decreases |s| - i
    ensures r <==> exists j :: i <= j && StartsAt(p, s, j)
  {
    if i >= |s| then
      assert forall j :: i <= j ==> !StartsAt(p, s, j) by {
        forall j | i <= j && StartsAt(p, s, j) {
          StartsInside(p, s, j);
        }
      }
      false
    else
      MatchAtCorrect(p, s, i);
      var rest := SearchFrom(p, s, i + 1);
      MatchAt(p, s, i) || rest
  }

  /** `p.test(s)`, executable. */
  function Test(p: Pattern, s: string): (r: bool)
    ensures r <==> Matches(p, s)
  {
    var r := SearchFrom(p, s, 0);
    assert forall j :: StartsAt(p, s, j) ==> 0 <= j by {
      forall j | StartsAt(p, s, j) {
        StartsInside(p, s, j);
      }
    }
    r
  }

  /** Content any of the three patterns flags. */
  ghost predicate Sensitive(s: string) {
    Matches(BearerToken, s) || Matches(CardNumber, s) || Matches(OneTimeCode, s)
  }

  /** What `Clipboard.getString()` produced. */
  datatype ClipboardRead = Content(text: string) | ReadFails

  /** The check's answer, and whether it wrote "" to the clipboard. */
  datatype Verdict = Verdict(suspicious: bool, clearsClipboard: bool)

  /** `checkClipboardForSensitiveData`: empty content and a failed read are
      not suspicious; otherwise the content is suspicious iff a pattern
      matches, and suspicious content is wiped. */
  function CheckClipboard(read: ClipboardRead): (v: Verdict)
    ensures v.clearsClipboard <==> v.suspicious
    ensures v.suspicious <==> read.Content? && read.text != "" && Sensitive(read.text)
  {
    match read
    case ReadFails => Verdict(false, false)
    case Content(text) =>
      if text == "" then Verdict(false, false)
      else
        var suspicious := Test(BearerToken, text) || Test(CardNumber, text) || Test(OneTimeCode, text);
        Verdict(suspicious, suspicious)
  }

  /** A six-digit code standing alone is flagged. */
  lemma OneTimeCodeIsFlagged()
    ensures CheckClipboard(Content("code 123456")).suspicious
  {
    assert StartsAt(OneTimeCode, "code 123456", 5);
  }

  /** Six digits inside a longer run of digits are no one-time code: the
      word boundaries of `\b\d{6}\b` exclude them. */
  lemma LongerDigitRunIsNoCode()
    ensures !Matches(OneTimeCode, "1234567")
  {
    forall i | StartsAt(OneTimeCode, "1234567", i)
      ensures false
    {
      var s := "1234567";
      if i == 0 {
        assert IsWordChar(s[6]);
      }
    }
  }

  /** A 16-digit number starting with 4 is flagged. */
  lemma CardNumberIsFlagged()
    ensures CheckClipboard(Content("4111111111111111")).suspicious
  {
    assert StartsAt(CardNumber, "4111111111111111", 0);
  }

  /** A bearer token of three dotted segments is flagged. */
  lemma BearerTokenIsFlagged()
    ensures CheckClipboard(Content("Bearer ab.cd.e")).suspicious
  {
    var t := "Bearer ab.cd.e";
    assert ContainsAt(t, BEARER, 0);
    assert BearerAt(t, 0, 7, 9, 12);
    assert StartsAt(BearerToken, t, 0);
  }
}

=== FILE: detectors.dfy ===
/** The asynchronous probes of dist/index.js whose answer is more than a
    coerced native result: the emulator check, the root/jailbreak check, the
    debugger check and the clock-tampering check.  Clock reads, the
    `performance.now()` measurement and the `Date` calendar year are inputs. */
module Detectors {
  import opened Js
  import opened Strings
  import opened Probe

  /** Substrings of the lower-cased, joined Android build properties that
      mark an emulator. */
  const ANDROID_EMULATOR_MARKERS: seq<string> :=
    ["generic", "sdk", "emulator", "x86", "goldfish", "ranchu"]

  /** Substrings of the lower-cased iOS model that mark a simulator. */
  const IOS_SIMULATOR_MARKERS: seq<string> := ["simulator", "x86_64", "i386"]

  /** The calendar years outside which the clock counts as tampered. */
  const MIN_YEAR: int := 2015
  const MAX_YEAR: int := 2100

  /** The largest accepted distance between the device clock and the
      trusted time: five minutes. */
  const MAX_CLOCK_SKEW_MS: int := 5 * 60 * 1000

  /** Bounds on how long a 100 ms timer may take before the clock counts
      as tampered. */
  const MIN_SLEEP_MS: int := 80
  const MAX_SLEEP_MS: int := 150

  /** Some marker occurs in `s`. */
  ghost predicate MentionsAny(s: string, markers: seq<string>) {
    exists k :: 0 <= k < |markers| && Contains(s, markers[k])
  }

  /** Executable form of a case-sensitive alternation of literals, as in
      `/generic|sdk|.../.test(s)` applied to an already lower-cased `s`. */
  function IncludesAny(s: string, markers: seq<string>): (r: bool)
    ensures r <==> MentionsAny(s, markers)
  {
    if |markers| == 0 then false
    else if Includes(s, markers[0]) then true
    else
      var rest := IncludesAny(s, markers[1..]);
      assert forall k :: 1 <= k < |markers| ==> markers[k] == markers[1..][k - 1];
      rest
  }

  /** `Object.values(v).join("")`: a string yields its characters, a plain
      object its property values, any other value nothing. */
  function ObjectValuesJoined(v: JsValue): string {
    match v
    case Str(s) => s
    case Obj(values) => Join(values)
    case _ => ""
  }

  /** `checkIfEmulator`.  On Android the build properties come from a
      native call under the timeout; on iOS `Promise.resolve(model)` settles
      at once, so the model property is used as read.  A truthy model that
      is not a string makes `toLowerCase` throw, which the catch turns into
      `false`. */
  function EmulatorCheck(platform: Platform, buildProps: Call, iosModel: JsValue): (r: bool)
    ensures platform.OtherPlatform? ==> !r
    ensures platform.Android? ==>
      (r <==> && buildProps.Invoked?
              && var props := WithTimeout(buildProps.pending, NATIVE_TIMEOUT_MS);
                 Truthy(props) && MentionsAny(ToLower(ObjectValuesJoined(props)), ANDROID_EMULATOR_MARKERS))
    ensures platform.IOS? ==>
      (r <==> iosModel.Str? && MentionsAny(ToLower(iosModel.s), IOS_SIMULATOR_MARKERS))
  {
    match platform
    case Android =>
      (match buildProps
       case ThrowsSync => false
       case Invoked(p) =>
         var props := WithTimeout(p, NATIVE_TIMEOUT_MS);
         if !Truthy(props) then false
         else IncludesAny(ToLower(ObjectValuesJoined(props)), ANDROID_EMULATOR_MARKERS))
    case IOS =>
      var model := if Truthy(iosModel) then iosModel else Str("");
      if model.Str? then IncludesAny(ToLower(model.s), IOS_SIMULATOR_MARKERS) else false
    case OtherPlatform => false
  }

  /** The two values "Gen" and "eric" join to "Generic". */
  lemma JoinedGeneric()
    ensures ObjectValuesJoined(Obj(["Gen", "eric"])) == "Generic"
  {
    var parts: seq<string> := ["Gen", "eric"];
    assert parts[..1] == ["Gen"] && parts[..1][..0] == [];
    assert Join(parts[..1]) == "Gen";
  }

  /** "Generic" lower-cases to the first Android marker. */
  lemma LowerGeneric()
    ensures ToLower("Generic") == ANDROID_EMULATOR_MARKERS[0]
  {
    var lowered := ToLower("Generic");
    assert lowered[0] == 'g';
    assert forall i :: 1 <= i < |lowered| ==> lowered[i] == "Generic"[i];
  }

  /** A marker may straddle two adjacent build properties, because the
      values are joined with no separator. */
  lemma EmulatorMarkerMaySpanValues()
    ensures EmulatorCheck(Android, Invoked(SettlesAfter(0, Fulfilled(Obj(["Gen", "eric"])))), Undefined)
  {
    JoinedGeneric();
    LowerGeneric();
    var lowered := ToLower(ObjectValuesJoined(Obj(["Gen", "eric"])));
    assert ContainsAt(lowered, ANDROID_EMULATOR_MARKERS[0], 0);
    assert MentionsAny(lowered, ANDROID_EMULATOR_MARKERS);
  }

  /** Missing, late, failed or empty build properties never mark an
      emulator. */
  lemma NoBuildPropsIsNotEmulator(buildProps: Call, iosModel: JsValue)
    requires !ReportsTrue(buildProps)
    ensures !EmulatorCheck(Android, buildProps, iosModel)
  {
  }

  /** `checkIfJailBrokenOrRooted`: without the file-system module the answer
      is `false`; otherwise it is the OR of three probes run under the
      timeout, where `null` counts as false.  A synchronous throw from any
      of the three calls aborts the whole check into `false`. */
  function RootCheck(fsPresent: bool, rootAccess: Call, jailbreakPaths: Call, suAccess: Call): (r: bool)
    ensures r <==>
      && fsPresent
      && !rootAccess.ThrowsSync? && !jailbreakPaths.ThrowsSync? && !suAccess.ThrowsSync?
      && (ReportsTrue(rootAccess) || ReportsTrue(jailbreakPaths) || ReportsTrue(suAccess))
  {
    if !fsPresent then false
    else if rootAccess.ThrowsSync? || jailbreakPaths.ThrowsSync? || suAccess.ThrowsSync? then false
    else
      Truthy(WithTimeout(rootAccess.pending, NATIVE_TIMEOUT_MS))
      || Truthy(WithTimeout(jailbreakPaths.pending, NATIVE_TIMEOUT_MS))
      || Truthy(WithTimeout(suAccess.pending, NATIVE_TIMEOUT_MS))
  }

  /** `checkDebugger`: the React DevTools global hook answers `true` before
      any native call; otherwise the native answer is coerced. */
  function DebuggerCheck(devtoolsHook: bool, isDebuggerConnected: Call): (r: bool)
    ensures r <==> devtoolsHook || ReportsTrue(isDebuggerConnected)
  {
    if devtoolsHook then true else Coerced(isDebuggerConnected)
  }

  /** The answer of a capability that reported a truthy value in time. */
  function Answer(c: Call): JsValue
    requires ReportsTrue(c)
  {
    c.pending.settlement.value
  }

  /** `checkTimeTampering`.  The year test comes first; then a truthy
      trusted time decides by the skew (NaN compares false); otherwise the
      measured duration of a 100 ms timer must lie in [80, 150]. */
  function TimeTampered(year: int, nowMs: int, secureTime: Call, sleptMs: int): (r: bool)
    ensures year < MIN_YEAR || year > MAX_YEAR ==> r
    ensures MIN_YEAR <= year <= MAX_YEAR && secureTime.ThrowsSync? ==> !r
    ensures MIN_YEAR <= year <= MAX_YEAR && ReportsTrue(secureTime) ==>
      (r <==> ToNumber(Answer(secureTime)).Int? && Abs(nowMs - ToNumber(Answer(secureTime)).n) > MAX_CLOCK_SKEW_MS)
    ensures MIN_YEAR <= year <= MAX_YEAR && secureTime.Invoked? && !ReportsTrue(secureTime) ==>
      (r <==> sleptMs < MIN_SLEEP_MS || sleptMs > MAX_SLEEP_MS)
  {
    if year < MIN_YEAR || year > MAX_YEAR then true
    else match secureTime
      case ThrowsSync => false
      case Invoked(p) =>
        var trusted := WithTimeout(p, NATIVE_TIMEOUT_MS);
        if Truthy(trusted) then
          match ToNumber(trusted)
          case NaN => false
          case Int(n) => Abs(nowMs - n) > MAX_CLOCK_SKEW_MS
        else sleptMs < MIN_SLEEP_MS || sleptMs > MAX_SLEEP_MS
  }

  /** The year bounds are inclusive, the skew bound is strict, and a trusted
      time of 0 is falsy and falls through to the timer measurement. */
  lemma TimeTamperingBoundaries(nowMs: nat)
    ensures !TimeTampered(2015, nowMs, Invoked(Absent), 100)
    ensures !TimeTampered(2100, nowMs, Invoked(Absent), 100)
    ensures TimeTampered(2014, nowMs, Invoked(Absent), 100)
    ensures TimeTampered(2101, nowMs, Invoked(Absent), 100)
    ensures !TimeTampered(2020, nowMs, Invoked(SettlesAfter(5, Fulfilled(Num(nowMs - 300000)))), 100)
    ensures TimeTampered(2020, nowMs, Invoked(SettlesAfter(5, Fulfilled(Num(nowMs + 300001)))), 100)
    ensures TimeTampered(2020, nowMs, Invoked(SettlesAfter(5, Fulfilled(Num(0)))), 79)
    ensures !TimeTampered(2020, nowMs, Invoked(SettlesAfter(5, Fulfilled(Num(0)))), 150)
  {
  }
}

=== FILE: frida.dfy ===
/** `isFridaPresent` (iOS): a scan of the names of the images the dynamic
    loader has mapped into the process.  The loader is reduced to the
    sequence of those names. */
module Frida {
  import opened Strings

  /** An image name that betrays an instrumentation framework: it contains
      "frida" or "cycript", compared case-sensitively as `strstr` does. */
  ghost predicate Injected(name: string) {
    Contains(name, "frida") || Contains(name, "cycript")
  }

  /** Returns the value the promise is resolved with, and how many images
      were looked at: the scan stops at the first injected image, and looks
      at every image when there is none.  The reject block is never used. */
  method IsFridaPresent(images: seq<string>) returns (present: bool, inspected: nat)
    ensures present <==> exists i :: 0 <= i < |images| && Injected(images[i])
    ensures inspected <= |images|
    ensures present ==> 0 < inspected && Injected(images[inspected - 1])
    ensures forall j :: 0 <= j < inspected && (j < inspected - 1 || !present) ==> !Injected(images[j])
    ensures !present ==> inspected == |images|
  {
    var i: nat := 0;
    while i < |images|
      invariant i <= |images|
      invariant forall j :: 0 <= j < i ==> !Injected(images[j])
    {
      if Includes(images[i], "frida") || Includes(images[i], "cycript") {
        return true, i + 1;
      }
      i := i + 1;
    }
    return false, i;
  }

  /** Matching is case-sensitive: a capitalised "Frida" is not caught. */
  lemma CaseSensitive()
    ensures Injected("frida-agent.dylib")
    ensures !Injected("FridaGadget")
  {
    assert ContainsAt("frida-agent.dylib", "frida", 0);
    MissingCharExcludes("FridaGadget", "frida", 0);
    MissingCharExcludes("FridaGadget", "cycript", 0);
  }
}

=== FILE: guardian.dfy ===
/** `useVaultGuardian` of dist/index.js as a step function over the events
    that reach the hook, in any order: the effect running (`Mount`), the full
    scan's `Promise.all` resolving, an `AppState` change, the clipboard
    interval firing and one of its reads resolving, and the effect's cleanup
    (`Unmount`).  Every `setStatus` is a record update of `Status`. */
module Guardian {
  import opened Js
  import opened Scan

  /** The status record the hook returns: the thirteen probe fields the
      full scan writes, the background flag and `loading`. */
  datatype Status = Status(
    probes: ScanResults,
    isAppInBackground: bool,
    loading: bool)

  /** The probe values shown while the scan runs: every field is false
      except `isCertificatePinnedValid`. */
  const LOADING_PROBES: ScanResults :=
    ScanResults(
      isEmulator := false,
      isJailBrokenOrRooted := false,
      isDebuggerConnected := false,
      isTimeTampered := false,
      isRuntimeTampered := false,
      isHookTampered := false,
      isNetworkTampered := false,
      isCertificatePinnedValid := true,
      isHardwareTampered := false,
      isClipboardSuspicious := false,
      isEnvTampered := false,
      isFridaDetected := false,
      isSignalTampered := false)

  /** The status at the first render: `loading` is set and the background
      flag reflects the app state at that moment. */
  function InitialStatus(currentState: string): (s: Status)
    ensures s.loading && s.probes == LOADING_PROBES
    ensures s.isAppInBackground <==> currentState != "active"
  {
    Status(LOADING_PROBES, InBackground(currentState), true)
  }

  /** The full scan's update: all thirteen probe fields and `loading` in
      one record update; `isAppInBackground` is carried over. */
  function ApplyScan(s: Status, r: ScanResults): (s': Status)
    ensures s'.probes == r && !s'.loading
    ensures s'.isAppInBackground == s.isAppInBackground
  {
    s.(probes := r, loading := false)
  }

  /** `s'` differs from `s` at most in the clipboard flag, and that flag
      was not lowered. */
  predicate ClipboardOnlyRaised(s: Status, s': Status) {
    && s' == s.(probes := s.probes.(isClipboardSuspicious := s'.probes.isClipboardSuspicious))
    && (s.probes.isClipboardSuspicious ==> s'.probes.isClipboardSuspicious)
  }

  /** What the partial updates may do to a status: move the background
      flag and raise the clipboard flag; `loading` and every other probe
      field stay as they were. */
  predicate PartialChange(s: Status, s': Status) {
    && s'.loading == s.loading
    && s'.probes == s.probes.(isClipboardSuspicious := s'.probes.isClipboardSuspicious)
    && (s.probes.isClipboardSuspicious ==> s'.probes.isClipboardSuspicious)
  }

  /** The app-state listener's update: only the background flag moves. */
  function WithAppState(s: Status, next: string): (s': Status)
    ensures s' == s.(isAppInBackground := s'.isAppInBackground)
    ensures s'.isAppInBackground <==> next != "active"
  {
    s.(isAppInBackground := InBackground(next))
  }

  /** The clipboard interval's update on a suspicious read. */
  function RaiseClipboardFlag(s: Status): (s': Status)
    ensures ClipboardOnlyRaised(s, s') && s'.probes.isClipboardSuspicious
  {
    s.(probes := s.probes.(isClipboardSuspicious := true))
  }

  /** The hook's state: the status, whether the effect has run, the
      effect's `isMounted` flag (the app-state listener and the clipboard
      interval live exactly as long as it is set), whether the full scan
      is still running, and how many clipboard reads started by the
      interval have not resolved yet. */
  datatype Hook = Hook(
    status: Status,
    effectRan: bool,
    isMounted: bool,
    scanInFlight: bool,
    readsInFlight: nat)

  datatype Event =
    | Mount                               // the effect runs (once: empty dependency list)
    | ScanResolved(results: ScanResults)  // performChecks' Promise.all resolves
    | AppStateChange(next: string)        // the "change" listener fires
    | ClipboardPoll                       // the interval fires and starts a clipboard read
    | ClipboardTick(suspicious: bool)     // a started clipboard read resolves
    | Unmount                             // the effect's cleanup runs

  /** The hook after its first render. */
  function Init(currentState: string): Hook {
    Hook(InitialStatus(currentState), false, false, false, 0)
  }

  /** The effect: on its first run it starts the scan and arms the
      listener and the interval; the empty dependency list keeps it from
      running again. */
  function OnMount(h: Hook): (h': Hook)
    ensures h'.status == h.status && h'.readsInFlight == h.readsInFlight
    ensures h.effectRan ==> h' == h
    ensures !h.effectRan ==> h'.effectRan && h'.isMounted && h'.scanInFlight
  {
    if h.effectRan then h
    else h.(effectRan := true, isMounted := true, scanInFlight := true)
  }

  /** `performChecks` resolving: it publishes only while mounted. */
  function OnScanResolved(h: Hook, results: ScanResults): (h': Hook)
    ensures h'.effectRan == h.effectRan && h'.isMounted == h.isMounted
    ensures h.isMounted && h.scanInFlight ==> h'.status == ApplyScan(h.status, results)
    ensures !(h.isMounted && h.scanInFlight) ==> h'.status == h.status
    ensures h'.status.loading ==> h.status.loading
  {
    if !h.scanInFlight then h
    else if h.isMounted then h.(scanInFlight := false, status := ApplyScan(h.status, results))
    else h.(scanInFlight := false)
  }

  /** The "change" listener, live while mounted. */
  function OnAppStateChange(h: Hook, next: string): (h': Hook)
    ensures h'.effectRan == h.effectRan && h'.isMounted == h.isMounted
    ensures h.isMounted ==> h'.status == WithAppState(h.status, next)
    ensures !h.isMounted ==> h'.status == h.status
  {
    if h.isMounted then h.(status := WithAppState(h.status, next)) else h
  }

  /** The interval firing, live while mounted: one more read starts. */
  function OnClipboardPoll(h: Hook): (h': Hook)
    ensures h'.status == h.status
    ensures h'.effectRan == h.effectRan && h'.isMounted == h.isMounted
    ensures h.isMounted ==> h'.readsInFlight == h.readsInFlight + 1
  {
    if h.isMounted then h.(readsInFlight := h.readsInFlight + 1) else h
  }

  /** A started read resolving: the flag is raised only when the read was
      suspicious, whether or not the hook is still mounted. */
  function OnClipboardTick(h: Hook, suspicious: bool): (h': Hook)
    ensures h'.effectRan == h.effectRan && h'.isMounted == h.isMounted
    ensures suspicious && h.readsInFlight > 0 ==> h'.status == RaiseClipboardFlag(h.status)
    ensures !(suspicious && h.readsInFlight > 0) ==> h'.status == h.status
  {
    if h.readsInFlight == 0 then h
    else if suspicious then
      h.(readsInFlight := h.readsInFlight - 1, status := RaiseClipboardFlag(h.status))
    else h.(readsInFlight := h.readsInFlight - 1)
  }

  /** One event.  Only the scan consults `isMounted`; a clipboard read that
      was started before the cleanup still writes when it resolves. */
  function Step(h: Hook, e: Event): (h': Hook)
    ensures e.AppStateChange? ==>
      h'.status == h.status.(isAppInBackground := h'.status.isAppInBackground)
    ensures e.AppStateChange? && h.isMounted ==>
      h'.status.isAppInBackground == InBackground(e.next)
    ensures e.ClipboardTick? ==> ClipboardOnlyRaised(h.status, h'.status)
    ensures e.ClipboardTick? && !e.suspicious ==> h'.status == h.status
    ensures e.ClipboardTick? && e.suspicious && h.readsInFlight > 0 ==>
      h'.status == RaiseClipboardFlag(h.status)
    ensures e.Mount? || e.ClipboardPoll? || e.Unmount? ==> h'.status == h.status
    ensures e.AppStateChange? && !h.isMounted ==> h'.status == h.status
    ensures e.ScanResolved? && h.isMounted && h.scanInFlight ==> h'.status == ApplyScan(h.status, e.results)
    ensures e.ScanResolved? && !(h.isMounted && h.scanInFlight) ==> h'.status == h.status
    ensures h.status.loading && !h'.status.loading ==>
      e.ScanResolved? && h.isMounted && h'.status.probes == e.results
    ensures !h.status.loading ==> !h'.status.loading
    ensures e.Mount? && !h.effectRan ==> h'.effectRan && h'.isMounted && h'.scanInFlight
    ensures e.ClipboardPoll? && h.isMounted ==> h'.readsInFlight == h.readsInFlight + 1
    ensures e.Unmount? ==> !h'.isMounted
    ensures h.effectRan ==> h'.effectRan && (h'.isMounted ==> h.isMounted)
  {
    match e
    case Mount => OnMount(h)
    case ScanResolved(results) => OnScanResolved(h, results)
    case AppStateChange(next) => OnAppStateChange(h, next)
    case ClipboardPoll => OnClipboardPoll(h)
    case ClipboardTick(suspicious) => OnClipboardTick(h, suspicious)
    case Unmount => h.(isMounted := false)
  }

  /** The hook after a trace of events. */
  function Run(h: Hook, trace: seq<Event>): Hook
    decreases |trace|
  {
    if |trace| == 0 then h else Run(Step(h, trace[0]), trace[1..])
  }

  /** The trace holds no completed full scan. */
  predicate NoScan(trace: seq<Event>) {
    forall i :: 0 <= i < |trace| ==> !trace[i].ScanResolved?
  }

  /** States reachable from `Init`: the listener, the interval and the
      scan exist only after the effect ran, and once the scan has been
      published it is no longer in flight. */
  predicate Valid(h: Hook) {
    && (h.isMounted ==> h.effectRan)
    && (h.scanInFlight ==> h.effectRan)
    && (!h.effectRan ==> h.readsInFlight == 0 && h.status.loading)
    && (!h.status.loading ==> !h.scanInFlight)
  }

  lemma InitIsValid(currentState: string)
    ensures Valid(Init(currentState))
    ensures Init(currentState).status == InitialStatus(currentState)
  {
  }

  lemma StepPreservesValid(h: Hook, e: Event)
    requires Valid(h)
    ensures Valid(Step(h, e))
  {
  }

  lemma {:induction false} RunPreservesValid(h: Hook, trace: seq<Event>)
    requires Valid(h)
    ensures Valid(Run(h, trace))
    decreases |trace|
  {
    if |trace| > 0 {
      StepPreservesValid(h, trace[0]);
      RunPreservesValid(Step(h, trace[0]), trace[1..]);
    }
  }

  lemma NoScanTail(trace: seq<Event>)
    requires |trace| > 0 && NoScan(trace)
    ensures NoScan(trace[1..]) && !trace[0].ScanResolved?
  {
    forall i | 0 <= i < |trace| - 1 ensures !trace[1..][i].ScanResolved? {
      assert trace[1..][i] == trace[i + 1];
    }
  }

  lemma PartialChangeTransitive(a: Status, b: Status, c: Status)
    requires PartialChange(a, b) && PartialChange(b, c)
    ensures PartialChange(a, c)
  {
  }

  lemma ClipboardOnlyRaisedTransitive(a: Status, b: Status, c: Status)
    requires ClipboardOnlyRaised(a, b) && ClipboardOnlyRaised(b, c)
    ensures ClipboardOnlyRaised(a, c)
  {
  }

  /** Every event except a scan resolving while mounted is a partial
      update. */
  lemma StepIsPartial(h: Hook, e: Event)
    requires !e.ScanResolved? || !(h.isMounted && h.scanInFlight)
    ensures PartialChange(h.status, Step(h, e).status)
  {
    var s, s' := h.status, Step(h, e).status;
    match e
    case ClipboardTick(_) =>
      assert ClipboardOnlyRaised(s, s');
    case AppStateChange(_) =>
    case _ =>
      assert s' == s;
  }

  /** Running a non-empty trace is one step followed by the rest. */
  lemma RunUnfold(h: Hook, trace: seq<Event>)
    requires |trace| > 0
    ensures Run(h, trace) == Run(Step(h, trace[0]), trace[1..])
  {
  }

  /** Partial updates never touch `loading` or any probe field except the
      clipboard flag, which they only raise: this holds over any trace
      without a completed scan. */
  lemma {:induction false} PartialUpdatesOnly(h: Hook, trace: seq<Event>)
    requires NoScan(trace)
    ensures PartialChange(h.status, Run(h, trace).status)
    decreases |trace|
  {
    if |trace| > 0 {
      NoScanTail(trace);
      var h1 := Step(h, trace[0]);
      StepIsPartial(h, trace[0]);
      PartialUpdatesOnly(h1, trace[1..]);
      RunUnfold(h, trace);
      PartialChangeTransitive(h.status, h1.status, Run(h1, trace[1..]).status);
    }
  }

  /** Once `loading` is false it stays false. */
  lemma {:induction false} LoadingStaysCleared(h: Hook, trace: seq<Event>)
    requires !h.status.loading
    ensures !Run(h, trace).status.loading
    decreases |trace|
  {
    if |trace| > 0 {
      LoadingStaysCleared(Step(h, trace[0]), trace[1..]);
    }
  }

  /** The full scan is published at most once: after `loading` has been
      cleared in a reachable state, every later trace acts like a trace of
      partial updates. */
  lemma {:induction false} PublishedOnce(h: Hook, trace: seq<Event>)
    requires Valid(h) && !h.status.loading
    ensures PartialChange(h.status, Run(h, trace).status)
    decreases |trace|
  {
    if |trace| > 0 {
      var h1 := Step(h, trace[0]);
      StepPreservesValid(h, trace[0]);
      StepIsPartial(h, trace[0]);
      PublishedOnce(h1, trace[1..]);
      RunUnfold(h, trace);
      PartialChangeTransitive(h.status, h1.status, Run(h1, trace[1..]).status);
    }
  }

  /** One event after the cleanup: the hook stays unmounted, and only a
      read already in flight can change the status. */
  lemma StepAfterUnmount(h: Hook, e: Event)
    requires h.effectRan && !h.isMounted
    ensures Step(h, e).effectRan && !Step(h, e).isMounted
    ensures ClipboardOnlyRaised(h.status, Step(h, e).status)
    ensures h.readsInFlight == 0 ==> Step(h, e).status == h.status && Step(h, e).readsInFlight == 0
  {
  }

  /** After the cleanup the status is frozen, except that clipboard reads
      already in flight may still raise the clipboard flag; a full scan or
      an app-state change arriving after the cleanup changes nothing. */
  lemma {:induction false} FrozenAfterUnmount(h: Hook, trace: seq<Event>)
    requires h.effectRan && !h.isMounted
    ensures ClipboardOnlyRaised(h.status, Run(h, trace).status)
    ensures h.readsInFlight == 0 ==> Run(h, trace).status == h.status
    decreases |trace|
  {
    if |trace| > 0 {
      var h1 := Step(h, trace[0]);
      StepAfterUnmount(h, trace[0]);
      FrozenAfterUnmount(h1, trace[1..]);
      RunUnfold(h, trace);
      ClipboardOnlyRaisedTransitive(h.status, h1.status, Run(h1, trace[1..]).status);
    }
  }

  /** A mounted scan publishes its results over the loading defaults, and
      a scan that resolves after the cleanup leaves the defaults showing. */
  lemma ScanScenarios(currentState: string, r: ScanResults)
    ensures Run(Init(currentState), [Mount, ScanResolved(r)]).status
         == ApplyScan(InitialStatus(currentState), r)
    ensures Run(Init(currentState), [Mount, Unmount, ScanResolved(r)]).status
         == InitialStatus(currentState)
  {
    var h0 := Init(currentState);
    var h1 := Step(h0, Mount);
    assert Run(h0, [Mount, ScanResolved(r)]) == Run(h1, [ScanResolved(r)]);
    assert Run(h1, [ScanResolved(r)]) == Run(Step(h1, ScanResolved(r)), []);
    var h2 := Step(h1, Unmount);
    assert Run(h0, [Mount, Unmount, ScanResolved(r)]) == Run(h1, [Unmount, ScanResolved(r)]);
    assert Run(h1, [Unmount, ScanResolved(r)]) == Run(h2, [ScanResolved(r)]);
    assert Run(h2, [ScanResolved(r)]) == Run(Step(h2, ScanResolved(r)), []);
  }

  /** The listener and the interval are armed before the scan resolves, so
      a clipboard hit seen by the interval is overwritten by a scan whose
      own clipboard read was clean. */
  lemma ScanOverwritesClipboardFlag(currentState: string, r: ScanResults)
    requires !r.isClipboardSuspicious
    ensures Run(Init(currentState), [Mount, ClipboardPoll, ClipboardTick(true)])
              .status.probes.isClipboardSuspicious
    ensures !Run(Init(currentState), [Mount, ClipboardPoll, ClipboardTick(true), ScanResolved(r)])
               .status.probes.isClipboardSuspicious
  {
    var h0 := Init(currentState);
    var h1 := Step(h0, Mount);
    var h2 := Step(h1, ClipboardPoll);
    var h3 := Step(h2, ClipboardTick(true));
    var h4 := Step(h3, ScanResolved(r));
    assert Run(h0, [Mount, ClipboardPoll, ClipboardTick(true)]) == Run(h1, [ClipboardPoll, ClipboardTick(true)]);
    assert Run(h1, [ClipboardPoll, ClipboardTick(true)]) == Run(h2, [ClipboardTick(true)]);
    assert Run(h2, [ClipboardTick(true)]) == Run(h3, []);
    assert Run(h0, [Mount, ClipboardPoll, ClipboardTick(true), ScanResolved(r)])
        == Run(h1, [ClipboardPoll, ClipboardTick(true), ScanResolved(r)]);
    assert Run(h1, [ClipboardPoll, ClipboardTick(true), ScanResolved(r)])
        == Run(h2, [ClipboardTick(true), ScanResolved(r)]);
    assert Run(h2, [ClipboardTick(true), ScanResolved(r)]) == Run(h3, [ScanResolved(r)]);
    assert Run(h3, [ScanResolved(r)]) == Run(h4, []);
  }

  /** The interval callback has no `isMounted` check: a clipboard read that
      was started before the cleanup still sets the flag after it. */
  lemma ReadInFlightWritesAfterUnmount(currentState: string)
    ensures Run(Init(currentState), [Mount, ClipboardPoll, Unmount, ClipboardTick(true)]).status
         == InitialStatus(currentState).(probes := LOADING_PROBES.(isClipboardSuspicious := true))
  {
  }
}

=== FILE: hardware.dfy ===
/** `HardwareModule.isTampered` (Android): a fixed test over five
    `android.os.Build` fields, which the module resolves and never rejects. */
module Hardware {
  import opened Strings

  /** The five build fields the test reads. */
  datatype Build = Build(
    fingerprint: string,
    model: string,
    manufacturer: string,
    brand: string,
    device: string)

  /** The device looks like an emulator: "generic" anywhere in the
      fingerprint, "Emulator" in the model, "Genymotion" in the
      manufacturer, or a brand or device that begins with "generic".  All
      comparisons are case-sensitive. */
  ghost predicate LooksEmulated(b: Build) {
    || Contains(b.fingerprint, "generic")
    || Contains(b.model, "Emulator")
    || Contains(b.manufacturer, "Genymotion")
    || StartsWith(b.brand, "generic")
    || StartsWith(b.device, "generic")
  }

  /** The value `isTampered` resolves its promise with. */
  function IsTampered(b: Build): (tampered: bool)
    ensures tampered <==> LooksEmulated(b)
  {
    || Includes(b.fingerprint, "generic")
    || Includes(b.model, "Emulator")
    || Includes(b.manufacturer, "Genymotion")
    || StartsWith(b.brand, "generic")
    || StartsWith(b.device, "generic")
  }

  /** Brand and device only count with "generic" at the front, while the
      fingerprint counts with it anywhere; "emulator" in lower case does not
      match the case-sensitive model test. */
  lemma PrefixVersusSubstring()
    ensures !IsTampered(Build("user", "emulator", "Acme", "mygeneric", "mygeneric"))
    ensures IsTampered(Build("mygeneric", "Pixel", "Acme", "google", "oriole"))
  {
    MissingCharExcludes("user", "generic", 0);
    MissingCharExcludes("emulator", "Emulator", 0);
    MissingCharExcludes("Acme", "Genymotion", 0);
    assert !StartsWith("mygeneric", "generic") by {
      assert "mygeneric"[..7][0] != "generic"[0];
    }
    assert ContainsAt("mygeneric", "generic", 2);
  }
}

=== FILE: js.dfy ===
/** JavaScript values as the hook sees them when a native module answers,
    together with the two coercions the source applies to them: truthiness
    (`!!x`, `if (x)`, `x || y`) and `Number(x)`. */
module Js {

  /** A value a native method may resolve with.  `Obj` is a plain object
      whose own enumerable property values, in insertion order, are strings
      (the shape of the Android build-properties map); any other object,
      including a promise, is an `Obj` as well. */
  datatype JsValue =
    | Undefined
    | Null
    | Bool(b: bool)
    | Num(n: int)
    | Str(s: string)
    | Obj(values: seq<string>)

  /** The platform the hook runs on (`Platform.OS`). */
  datatype Platform = Android | IOS | OtherPlatform

  /** JavaScript truthiness: `undefined`, `null`, `false`, `0` and `""` are
      falsy; every object is truthy. */
  predicate Truthy(v: JsValue) {
    match v
    case Undefined => false
    case Null => false
    case Bool(b) => b
    case Num(n) => n != 0
    case Str(s) => s != ""
    case Obj(_) => true
  }

  /** The result of `Number(x)`: a number or NaN. */
  datatype Number = NaN | Int(n: int)

  /** An ASCII decimal digit: `[0-9]`, and `\d` in a regular expression. */
  predicate IsDigit(c: char) {
    '0' <= c <= '9'
  }

  predicate AllDigits(s: string) {
    forall i :: 0 <= i < |s| ==> IsDigit(s[i])
  }

  /** The value of a string of decimal digits. */
  function DecimalValue(s: string): (r: nat)
    requires AllDigits(s)
  {
    if |s| == 0 then 0
    else DecimalValue(s[..|s| - 1]) * 10 + (s[|s| - 1] as int - '0' as int)
  }

  /** `Number(x)`.  Strings are numbers when empty (0) or made of decimal
      digits only; every other string is NaN in this model.  Every `Obj` is
      NaN, as for a plain object; an array, which JavaScript converts through
      its comma-joined string, is not told apart from a plain object. */
  function ToNumber(v: JsValue): Number
  {
    match v
    case Undefined => NaN
    case Null => Int(0)
    case Bool(b) => Int(if b then 1 else 0)
    case Num(n) => Int(n)
    case Str(s) => if AllDigits(s) then Int(DecimalValue(s)) else NaN
    case Obj(_) => NaN
  }

  function Abs(x: int): nat {
    if x < 0 then -x else x
  }

  /** The hook's reading of an `AppState` value: anything but "active"
      counts as being in the background. */
  predicate InBackground(appState: string) {
    appState != "active"
  }
}

=== FILE: legacy.dfy ===
/** The older, synchronous `useVaultGuardian` of src/index.ts: five fields,
    no `loading` flag, no timeouts, and checks that call native properties
    and methods directly.  It is a separate variant, not the source of the
    bundled hook. */
module Legacy {
  import opened Js
  import opened Strings
  import Probe
  import Detectors

  /** The calendar years outside which this variant flags the clock. */
  const LEGACY_MIN_YEAR: int := 2010
  const LEGACY_MAX_YEAR: int := 2100

  /** The legacy status.  `isJailBrokenOrRooted` holds whatever
      `checkRootAccess() || false` produced, which need not be a boolean. */
  datatype LegacyStatus = LegacyStatus(
    isEmulator: bool,
    isJailBrokenOrRooted: JsValue,
    isDebuggerConnected: bool,
    isAppInBackground: bool,
    isTimeTampered: bool)

  /** The status at the first render: every field false, whatever the
      current app state is. */
  const LEGACY_INITIAL: LegacyStatus := LegacyStatus(false, Bool(false), false, false, false)

  /** A synchronous native method call: the method is missing, throws, or
      returns a value (a promise, if the native method is asynchronous, is
      an object). */
  datatype SyncCall = NoMethod | Throws | Returns(value: JsValue)

  /** A computation that may throw a `TypeError` no `try` catches. */
  datatype Eval<T> = Ok(value: T) | TypeError

  /** `(x || '').toLowerCase()`: a truthy value that is not a string has no
      `toLowerCase` and the call throws. */
  function LowerOrEmpty(v: JsValue): (r: Eval<string>)
    ensures r.TypeError? <==> Truthy(v) && !v.Str?
    ensures v.Str? ==> r == Ok(ToLower(v.s))
    ensures !Truthy(v) ==> r == Ok("")
  {
    if !Truthy(v) then Ok("")
    else if v.Str? then Ok(ToLower(v.s))
    else TypeError
  }

  /** `checkIfEmulator`: on Android the brand must be exactly "generic"
      ignoring case; on iOS the model must contain "simulator" ignoring
      case; elsewhere the answer is `false`.  A missing module reads as
      `undefined`, hence as "". */
  function EmulatorCheck(platform: Platform, brand: JsValue, model: JsValue): (r: Eval<bool>)
    ensures platform.OtherPlatform? ==> r == Ok(false)
    ensures platform.Android? ==> (r.TypeError? <==> Truthy(brand) && !brand.Str?)
    ensures platform.Android? && r.Ok? ==> (r.value <==> brand.Str? && ToLower(brand.s) == "generic")
    ensures platform.IOS? ==> (r.TypeError? <==> Truthy(model) && !model.Str?)
    ensures platform.IOS? && r.Ok? ==>
      (r.value <==> model.Str? && Contains(ToLower(model.s), "simulator"))
  {
    match platform
    case Android =>
      (match LowerOrEmpty(brand)
       case TypeError => TypeError
       case Ok(b) => Ok(b == "generic"))
    case IOS =>
      (match LowerOrEmpty(model)
       case TypeError => TypeError
       case Ok(m) => Ok(Includes(m, "simulator")))
    case OtherPlatform => Ok(false)
  }

  /** Only the exact brand counts: "Generic" does, "generic_x86" does not,
      and a missing brand does not. */
  lemma EmulatorBrandIsExact()
    ensures EmulatorCheck(Android, Str("Generic"), Undefined) == Ok(true)
    ensures EmulatorCheck(Android, Str("generic_x86"), Undefined) == Ok(false)
    ensures EmulatorCheck(Android, Undefined, Undefined) == Ok(false)
  {
  }

  /** `checkIfJailBrokenOrRooted`: the module's own answer when truthy,
      `false` otherwise, and `false` when the module or method is missing or
      the call throws. */
  function RootCheck(fileSystemModule: bool, checkRootAccess: SyncCall): (r: JsValue)
    ensures Truthy(r) <==> fileSystemModule && checkRootAccess.Returns? && Truthy(checkRootAccess.value)
    ensures Truthy(r) ==> r == checkRootAccess.value
    ensures !Truthy(r) ==> r == Bool(false)
  {
    if !fileSystemModule then Bool(false)
    else match checkRootAccess
      case NoMethod => Bool(false)
      case Throws => Bool(false)
      case Returns(v) => if Truthy(v) then v else Bool(false)
  }

  /** An asynchronous native `checkRootAccess` hands back a promise, which
      is an object and therefore truthy: the legacy check then reports a
      rooted device whatever the promise will resolve to. */
  lemma PromiseCountsAsRooted(promise: seq<string>)
    ensures Truthy(RootCheck(true, Returns(Obj(promise))))
  {
  }

  /** `checkTimeTampering` of this variant: the year test alone. */
  function TimeTampered(year: int): bool {
    year < LEGACY_MIN_YEAR || year > LEGACY_MAX_YEAR
  }

  /** Every year this variant rejects, the bundled hook rejects too; the
      years 2010 to 2014 are rejected by the bundled hook only. */
  lemma YearWindowsDiffer(year: int, nowMs: int, secureTime: Probe.Call, sleptMs: int)
    ensures TimeTampered(year) ==> Detectors.TimeTampered(year, nowMs, secureTime, sleptMs)
    ensures LEGACY_MIN_YEAR <= year < Detectors.MIN_YEAR ==>
      !TimeTampered(year) && Detectors.TimeTampered(year, nowMs, secureTime, sleptMs)
  {
  }

  /** Everything the effect reads from the host. */
  datatype LegacyHost = LegacyHost(
    platform: Platform,
    brand: JsValue,
    model: JsValue,
    fileSystemModule: bool,
    checkRootAccess: SyncCall,
    devtoolsHook: bool,
    year: int,
    currentState: string)

  /** The effect's `setStatus` with a whole new record, or the `TypeError`
      that aborts the effect before `setStatus` and before the listener is
      added. */
  function EffectStatus(host: LegacyHost): (r: Eval<LegacyStatus>)
    ensures r.TypeError? <==> EmulatorCheck(host.platform, host.brand, host.model).TypeError?
    ensures r.Ok? ==>
      && Ok(r.value.isEmulator) == EmulatorCheck(host.platform, host.brand, host.model)
      && r.value.isJailBrokenOrRooted == RootCheck(host.fileSystemModule, host.checkRootAccess)
      && r.value.isDebuggerConnected == host.devtoolsHook
      && r.value.isAppInBackground == InBackground(host.currentState)
      && r.value.isTimeTampered == TimeTampered(host.year)
  {
    match EmulatorCheck(host.platform, host.brand, host.model)
    case TypeError => TypeError
    case Ok(isEmulator) =>
      Ok(LegacyStatus(
        isEmulator := isEmulator,
        isJailBrokenOrRooted := RootCheck(host.fileSystemModule, host.checkRootAccess),
        isDebuggerConnected := host.devtoolsHook,
        isAppInBackground := InBackground(host.currentState),
        isTimeTampered := TimeTampered(host.year)))
  }

  /** The legacy hook: its status, whether the effect has run, whether the
      app-state subscription is live, and whether the effect threw. */
  datatype LegacyHook = LegacyHook(
    status: LegacyStatus,
    effectRan: bool,
    subscribed: bool,
    crashed: bool)

  datatype LegacyEvent =
    | Mount(host: LegacyHost)        // the effect runs, once
    | AppStateChange(next: string)   // the "change" listener fires
    | Unmount                        // the cleanup removes the subscription

  const LEGACY_START: LegacyHook := LegacyHook(LEGACY_INITIAL, false, false, false)

  /** One event of the legacy hook. */
  function LegacyStep(h: LegacyHook, e: LegacyEvent): (h': LegacyHook)
    ensures e.AppStateChange? ==>
      h'.status == h.status.(isAppInBackground := h'.status.isAppInBackground)
    ensures e.AppStateChange? && h.subscribed ==>
      h'.status.isAppInBackground == InBackground(e.next)
    ensures e.AppStateChange? && !h.subscribed ==> h'.status == h.status
    ensures e.Unmount? ==> h'.status == h.status && !h'.subscribed
    ensures e.Mount? && h.effectRan ==> h' == h
    ensures e.Mount? && !h.effectRan ==>
      (h'.crashed <==> EffectStatus(e.host).TypeError?)
      && (h'.crashed ==> h'.status == h.status && !h'.subscribed)
      && (!h'.crashed ==> Ok(h'.status) == EffectStatus(e.host) && h'.subscribed)
    ensures h.effectRan ==> h'.effectRan && (h'.subscribed ==> h.subscribed)
  {
    match e
    case Mount(host) =>
      if h.effectRan then h
      else (match EffectStatus(host)
            case TypeError => LegacyHook(h.status, effectRan := true, subscribed := false, crashed := true)
            case Ok(s) => LegacyHook(s, effectRan := true, subscribed := true, crashed := false))
    case AppStateChange(next) =>
      if h.subscribed then h.(status := h.status.(isAppInBackground := InBackground(next)))
      else h
    case Unmount =>
      h.(subscribed := false)
  }

  function LegacyRun(h: LegacyHook, trace: seq<LegacyEvent>): LegacyHook
    decreases |trace|
  {
    if |trace| == 0 then h else LegacyRun(LegacyStep(h, trace[0]), trace[1..])
  }

  /** After the cleanup (or after the effect threw) nothing changes the
      status any more. */
  lemma {:induction false} LegacySilentAfterUnmount(h: LegacyHook, trace: seq<LegacyEvent>)
    requires h.effectRan && !h.subscribed
    ensures LegacyRun(h, trace).status == h.status
    decreases |trace|
  {
    if |trace| > 0 {
      LegacySilentAfterUnmount(LegacyStep(h, trace[0]), trace[1..]);
    }
  }

  /** Until the effect runs the background flag reads `false` even when
      the app starts in the background; the effect then replaces the whole
      record. */
  lemma LegacyStartup(host: LegacyHost)
    requires EffectStatus(host).Ok?
    ensures !LEGACY_START.status.isAppInBackground
    ensures LegacyRun(LEGACY_START, [Mount(host)]).status == EffectStatus(host).value
  {
  }
}

=== FILE: probe.dfy ===
/** Running one native capability under a timeout (`withTimeout` in
    dist/index.js) and coercing what comes back to a boolean (`!!result`).
    Time is reduced to the delay after which the returned promise settles,
    measured from the moment the race starts. */
module Probe {
  import opened Js

  /** `NATIVE_TIMEOUT`: the bound every native call is raced against. */
  const NATIVE_TIMEOUT_MS: nat := 3000

  /** How a promise settles. */
  datatype Settlement = Fulfilled(value: JsValue) | Rejected

  /** What invoking an optional native method hands to the race.  `Absent`
      is the `undefined` that `module?.method?.call(...)` yields when the
      module or the method does not exist; a method returning a plain value
      settles after 0 ms. */
  datatype Pending =
    | Absent
    | SettlesAfter(ms: nat, settlement: Settlement)
    | NeverSettles

  /** Invoking the method either throws synchronously, before any race is
      set up, or hands something to the race. */
  datatype Call = ThrowsSync | Invoked(pending: Pending)

  /** The tri-state outcome of the race: the capability answered, the timer
      won, the capability rejected, or there was no capability. */
  datatype Outcome = Value(v: JsValue) | Timeout | Failed | Unavailable

  /** `Promise.race([promise, timer])`: a settlement strictly before the
      timeout wins; at or after it the timer's `null` wins.  `undefined`
      settles at once. */
  function Race(p: Pending, timeoutMs: nat): Outcome
  {
    match p
    case Absent => Unavailable
    case SettlesAfter(ms, st) =>
      if timeoutMs <= ms then Timeout
      else if st.Rejected? then Failed
      else Value(st.value)
    case NeverSettles => Timeout
  }

  /** `withTimeout`: never rejects; the catch turns a rejection into
      `null`, and so does the timer. */
  function WithTimeout(p: Pending, timeoutMs: nat): (r: JsValue)
    ensures p.Absent? ==> r == Undefined
    ensures p.NeverSettles? ==> r == Null
    ensures p.SettlesAfter? && timeoutMs <= p.ms ==> r == Null
    ensures p.SettlesAfter? && p.ms < timeoutMs && p.settlement.Rejected? ==> r == Null
    ensures p.SettlesAfter? && p.ms < timeoutMs && p.settlement.Fulfilled? ==> r == p.settlement.value
  {
    match Race(p, timeoutMs)
    case Value(v) => v
    case Timeout => Null
    case Failed => Null
    case Unavailable => Undefined
  }

  /** The capability answered with a truthy value within the timeout. */
  ghost predicate ReportsTrue(c: Call) {
    && c.Invoked?
    && c.pending.SettlesAfter?
    && c.pending.ms < NATIVE_TIMEOUT_MS
    && c.pending.settlement.Fulfilled?
    && Truthy(c.pending.settlement.value)
  }

  /** A native probe of the shape `try { return !!(await withTimeout(call)) }
      catch { return false }`: absence, `null`, `undefined`, a timeout, a
      rejection and a synchronous throw all give the safe default `false`. */
  function Coerced(c: Call): (r: bool)
    ensures r <==> ReportsTrue(c)
  {
    match c
    case ThrowsSync => false
    case Invoked(p) => Truthy(WithTimeout(p, NATIVE_TIMEOUT_MS))
  }
}

=== FILE: scan.dfy ===
/** `performChecks`: the full scan of dist/index.js.  Eleven asynchronous
    probes run together behind one `Promise.all`; none of them can reject,
    because each catches its own failures.  Then the two synchronous
    runtime checks run.  Everything the probes read from the host is one
    `Host` value. */
module Scan {
  import opened Js
  import opened Probe
  import opened Detectors
  import Clipboard

  /** What the host offers the probes: each native method as a `Call`,
      and the clock, timer, clipboard and runtime readings as values.
      `hookTampered` and `envTampered` are the answers of
      `detectHookTampering` and `detectEnvTampering`, which inspect the
      JavaScript runtime itself. */
  datatype Host = Host(
    platform: Platform,
    buildProps: Call,
    iosModel: JsValue,
    fileSystemModule: bool,
    rootAccess: Call,
    jailbreakPaths: Call,
    suAccess: Call,
    devtoolsHook: bool,
    debuggerConnected: Call,
    year: int,
    nowMs: int,
    secureTime: Call,
    sleptMs: int,
    runtimeIntegrity: Call,
    mitmAttack: Call,
    pinnedCertificate: Call,
    hardwareTampered: Call,
    clipboard: Clipboard.ClipboardRead,
    fridaPresent: Call,
    signalTampered: Call,
    hookTampered: bool,
    envTampered: bool)

  /** The thirteen probe fields the full scan publishes. */
  datatype ScanResults = ScanResults(
    isEmulator: bool,
    isJailBrokenOrRooted: bool,
    isDebuggerConnected: bool,
    isTimeTampered: bool,
    isRuntimeTampered: bool,
    isHookTampered: bool,
    isNetworkTampered: bool,
    isCertificatePinnedValid: bool,
    isHardwareTampered: bool,
    isClipboardSuspicious: bool,
    isEnvTampered: bool,
    isFridaDetected: bool,
    isSignalTampered: bool)

  /** The scan's results.  Each field depends on its own capability only,
      so a probe that hangs, rejects or throws cannot disturb another one;
      the plain native probes report `true` exactly when their capability
      answered a truthy value within the timeout. */
  function PerformChecks(host: Host): (r: ScanResults)
    ensures r.isRuntimeTampered <==> ReportsTrue(host.runtimeIntegrity)
    ensures r.isNetworkTampered <==> ReportsTrue(host.mitmAttack)
    ensures r.isCertificatePinnedValid <==> ReportsTrue(host.pinnedCertificate)
    ensures r.isHardwareTampered <==> ReportsTrue(host.hardwareTampered)
    ensures r.isFridaDetected <==> ReportsTrue(host.fridaPresent)
    ensures r.isSignalTampered <==> ReportsTrue(host.signalTampered)
    ensures r.isDebuggerConnected <==> host.devtoolsHook || ReportsTrue(host.debuggerConnected)
    ensures r.isHookTampered == host.hookTampered && r.isEnvTampered == host.envTampered
    ensures r.isEmulator == EmulatorCheck(host.platform, host.buildProps, host.iosModel)
    ensures r.isJailBrokenOrRooted ==
      RootCheck(host.fileSystemModule, host.rootAccess, host.jailbreakPaths, host.suAccess)
    ensures r.isTimeTampered == TimeTampered(host.year, host.nowMs, host.secureTime, host.sleptMs)
    ensures r.isClipboardSuspicious <==>
      host.clipboard.Content? && host.clipboard.text != "" && Clipboard.Sensitive(host.clipboard.text)
  {
    ScanResults(
      isEmulator := EmulatorCheck(host.platform, host.buildProps, host.iosModel),
      isJailBrokenOrRooted :=
        RootCheck(host.fileSystemModule, host.rootAccess, host.jailbreakPaths, host.suAccess),
      isDebuggerConnected := DebuggerCheck(host.devtoolsHook, host.debuggerConnected),
      isTimeTampered := TimeTampered(host.year, host.nowMs, host.secureTime, host.sleptMs),
      isRuntimeTampered := Coerced(host.runtimeIntegrity),
      isHookTampered := host.hookTampered,
      isNetworkTampered := Coerced(host.mitmAttack),
      isCertificatePinnedValid := Coerced(host.pinnedCertificate),
      isHardwareTampered := Coerced(host.hardwareTampered),
      isClipboardSuspicious := Clipboard.CheckClipboard(host.clipboard).suspicious,
      isEnvTampered := host.envTampered,
      isFridaDetected := Coerced(host.fridaPresent),
      isSignalTampered := Coerced(host.signalTampered))
  }

  /** A host without any native module, with a sane clock and an empty
      clipboard.  Its scan reports nothing, and it also reports the
      certificate pin as not valid: the safe default of that probe is the
      alarming value. */
  lemma BareHostReportsNothing(year: int, nowMs: int, sleptMs: int)
    requires MIN_YEAR <= year <= MAX_YEAR
    requires MIN_SLEEP_MS <= sleptMs <= MAX_SLEEP_MS
    ensures var r := PerformChecks(Host(
        OtherPlatform, Invoked(Absent), Undefined,
        false, Invoked(Absent), Invoked(Absent), Invoked(Absent),
        false, Invoked(Absent),
        year, nowMs, Invoked(Absent), sleptMs,
        Invoked(Absent), Invoked(Absent), Invoked(Absent), Invoked(Absent),
        Clipboard.Content(""), Invoked(Absent), Invoked(Absent),
        false, false));
      r == ScanResults(false, false, false, false, false, false, false,
                       false, false, false, false, false, false)
  {
  }
}

=== FILE: strings.dfy ===
/** String operations the detectors rely on: substring search (Java's
    `contains`, JavaScript's `includes`, C's `strstr`), prefix test
    (`startsWith`), ASCII lower-casing and `Array.prototype.join("")`. */
module Strings {

  /** `sub` occurs in `s` starting at index `i`. */
  predicate ContainsAt(s: string, sub: string, i: int) {
    0 <= i && i + |sub| <= |s| && s[i..i + |sub|] == sub
  }

  /** `sub` occurs somewhere in `s`. */
  ghost predicate Contains(s: string, sub: string) {
    exists i :: ContainsAt(s, sub, i)
  }

  /** `p` is a prefix of `s`. */
  predicate StartsWith(s: string, p: string) {
    |p| <= |s| && s[..|p|] == p
  }

  /** The first index at or after `from` where `sub` occurs, or -1 when
      there is none. */
  function IndexOfFrom(s: string, sub: string, from: nat): (r: int)
    decreases |s| - from
    ensures r == -1 || (from <= r && ContainsAt(s, sub, r))
    ensures r == -1 ==> forall j :: from <= j ==> !ContainsAt(s, sub, j)
    ensures r != -1 ==> forall j :: from <= j < r ==> !ContainsAt(s, sub, j)
  {
    if from + |sub| > |s| then -1
    else if s[from..from + |sub|] == sub then from
    else IndexOfFrom(s, sub, from + 1)
  }

  /** Executable substring test. */
  function Includes(s: string, sub: string): (r: bool)
    ensures r <==> Contains(s, sub)
  {
    IndexOfFrom(s, sub, 0) != -1
  }

  /** A string lacking one character of `sub` cannot contain `sub`. */
  lemma MissingCharExcludes(s: string, sub: string, k: nat)
    requires k < |sub|
    requires forall i :: 0 <= i < |s| ==> s[i] != sub[k]
    ensures !Contains(s, sub)
  {
    forall i ensures !ContainsAt(s, sub, i) {
      if 0 <= i && i + |sub| <= |s| {
        assert s[i..i + |sub|][k] == s[i + k] != sub[k];
      }
    }
  }

  /** An occurrence in either part is an occurrence in the concatenation. */
  lemma {:induction false} ContainsInConcat(a: string, b: string, sub: string)
    requires Contains(a, sub) || Contains(b, sub)
    ensures Contains(a + b, sub)
  {
    if Contains(a, sub) {
      var i :| ContainsAt(a, sub, i);
      assert (a + b)[i..i + |sub|] == a[i..i + |sub|];
      assert ContainsAt(a + b, sub, i);
    } else {
      var i :| ContainsAt(b, sub, i);
      assert (a + b)[|a| + i..|a| + i + |sub|] == b[i..i + |sub|];
      assert ContainsAt(a + b, sub, |a| + i);
    }
  }

  /** ASCII lower-casing of one character. */
  function LowerChar(c: char): char {
    if 'A' <= c <= 'Z' then (c as int + 32) as char else c
  }

  /** `toLowerCase()`, restricted to ASCII letters.  The result holds no
      ASCII capital, so a case-insensitive match against lower-case
      literals agrees with a case-sensitive one on it. */
  function ToLower(s: string): (r: string)
    ensures |r| == |s|
    ensures forall i :: 0 <= i < |r| ==> !('A' <= r[i] <= 'Z')
    ensures forall i :: 0 <= i < |s| && !('A' <= s[i] <= 'Z') ==> r[i] == s[i]
    ensures forall i :: 0 <= i < |s| && 'A' <= s[i] <= 'Z' ==> r[i] as int == s[i] as int + 32
  {
    seq(|s|, i requires 0 <= i < |s| => LowerChar(s[i]))
  }

  /** `parts.join("")`. */
  function Join(parts: seq<string>): string
  {
    if |parts| == 0 then "" else Join(parts[..|parts| - 1]) + parts[|parts| - 1]
  }

  /** An occurrence inside one part survives the join. */
  lemma {:induction false} JoinKeepsPart(parts: seq<string>, k: nat, sub: string)
    requires k < |parts|
    requires Contains(parts[k], sub)
    ensures Contains(Join(parts), sub)
    decreases |parts|
  {
    var init := parts[..|parts| - 1];
    if k == |parts| - 1 {
      ContainsInConcat(Join(init), parts[k], sub);
    } else {
      assert init[k] == parts[k];
      JoinKeepsPart(init, k, sub);
      ContainsInConcat(Join(init), parts[|parts| - 1], sub);
    }
  }
}
